=== FILE: README.md ===
# The app subscription session of a WebSocket pub/sub hub, in Dafny

This project models `ws_app`, the handler that runs for each app client
connected to the hub's `/ws/app` endpoint. The handler accepts the connection
and then receives text frames in a loop. Each frame `{"action": "subscribe",
"topic": T}` registers the connection under topic `T` (`app_add`) and records
`T` in a local set. When the loop is left, a `finally` block unregisters the
connection from every recorded topic (`app_remove`) and closes it.

The model is a pure state machine over immutable values:

- `JsonValue` (json_value.dfy): decoded JSON values, plus the two Python
  notions the handler relies on. One is truthiness: `and topic` is false for
  `None`, `False`, zero and empty strings and containers. The other is
  hashability: `set.add` raises on a list or a dict. `Classify` decides
  whether a decoded frame is a subscribe request.
- `AppSession` (app_session.dfy): the state is `(phase, subscribed, trace)`.
  - `phase` is Active, then Closing, then Closed.
  - `subscribed` is the handler's local `subscribed_topics` set.
  - `trace` lists the handler's calls to `maybe_set_base_url_from_ws`,
    `app_add`, `app_remove` and `close()`, in order, each marked as returned
    or raised. Calls to `accept()`, `receive_text()`, `json.loads` and the
    logging functions are not recorded: their outcomes are inputs.
  - `Open` models the accept guard and the base-URL call.
  - `Step` handles one receive outcome, and `Loop` folds `Step` over a finite
    sequence of them.
  - `Finally` is the cleanup.
  - `Run` composes the three parts under an environment `Env`, which fixes
    every outcome the handler cannot decide for itself.
- `AppSessionProps` (app_session_props.dfy): the properties.
  - Bookkeeping: the local set is exactly the hashable topics whose `app_add`
    returned.
  - Loop exit: the loop is left only on a disconnect or a cancellation.
  - Cleanup: it follows the set order. A raising `app_remove` stops it.
  - Headline: when no `app_remove` raises, the cleanup removes exactly the
    hashable topics whose `app_add` returned, each once, and then closes. A
    list or object topic whose `app_add` returned is never removed.

Failures are modelled by their Python class:
- `WebSocketDisconnect` (`Disconnected`) is caught by the loop's `except
  WebSocketDisconnect: break`, whichever statement of the loop body raised
  it. Outside the loop it is an ordinary `Exception`.
- Any other `Exception` (`Error`) is caught by the handler's `except
  Exception` clauses.
- A `BaseException` that is not an `Exception` (`Cancelled`) passes through
  those clauses. This is usually asyncio's `CancelledError`, but
  `KeyboardInterrupt` or `SystemExit` raised inside an `await` behaves the
  same way.

As a result:
- A cancelled `accept()` escapes with no cleanup; any other failed accept
  returns with no cleanup.
- A disconnect in the loop, while receiving or inside `app_add`, leaves the
  loop. The cleanup runs and the handler returns normally.
- A cancellation in the loop, while receiving or inside `app_add`, leaves
  the loop. The cleanup still runs, and the cancellation propagates after it.
- A cancellation inside the cleanup escapes at once; any other exception
  there is swallowed.

Details of the code that the model keeps:
- Topics are not limited to non-empty strings. Any truthy JSON value is
  passed to `app_add`, including a number or a list.
  - A list or object topic is passed to `app_add`, but it is never recorded:
    `set.add` raises, and the loop logs that and goes on.
  - So if the registry accepted such a topic, the cleanup would never remove
    it. `UnhashableTopicNotRecorded` states this for every such topic.
- An unrecognised action is ignored silently, not logged as malformed. A
  decoded value that is not an object reaches the generic error handler.
  Neither changes any state.
- The cleanup is not guaranteed to unregister every recorded topic. The first
  `app_remove` that raises ends the block, and the remaining removals and the
  `close()` are skipped.
- `maybe_set_base_url_from_ws` runs outside every `try`. If it raises, the
  exception escapes before the loop, with no cleanup and no `close()`.

## Model

| member | source | states |
|---|---|---|
| JsonValue.Classify | routes/routes_ws/app_ws.py:36-41 | A decoded frame is a subscribe request exactly when it is an object whose "action" key holds the string "subscribe" and whose "topic" key holds a truthy value, which is the topic. A non-object is classified apart, as the value `.get` fails on. |
| AppSession.Open | routes/routes_ws/app_ws.py:18-27 | The session starts with an empty local set and runs the loop only if both accept and the base-URL call return. A failed accept returns and a cancelled one escapes, both with no recorded call made. A raising base-URL call ends the session with that one call recorded. |
| AppSession.Step | routes/routes_ws/app_ws.py:29-54 | One receive never leaves a finished session and never shrinks the local set. It appends at most one call, and that call is an `app_add`. An active session either stays in the loop or moves to cleanup. |
| AppSession.Handle | routes/routes_ws/app_ws.py:36-54 | A decoded frame that is not a subscribe request changes nothing. A subscribe request appends exactly one `app_add` call on its topic, returned or raised. The phase changes only when that call raised a disconnect or a cancellation, never on another exception. |
| AppSession.Loop | routes/routes_ws/app_ws.py:29-54 | Over any sequence of receive outcomes, the loop keeps the calls made before it as a prefix. It only grows the set and only adds `app_add` calls, at most one per outcome. It ends either still receiving or ready for cleanup. |
| AppSession.Resume | routes/routes_ws/app_ws.py:56-65 | When a cleanup call raises, the session finishes either as the loop was left or with a propagated cancellation. It keeps the way the loop was left iff the failure is not a cancellation, or the loop was itself left by one. |
| AppSession.Finally | routes/routes_ws/app_ws.py:56-65 | The cleanup always ends the session and makes at least one call, plus at most one per planned topic and `close()`. It leaves the local set and earlier calls untouched. It finishes the way the loop was left, unless a cancellation overrides that. |
| AppSession.Run | routes/routes_ws/app_ws.py:11-67 | The whole handler is either still receiving or finished. If accept raised, it finished with no recorded call made. If it is still receiving, both accept and the base-URL call returned. |
| AppSessionProps.AddedTopicsMeaning | routes/routes_ws/app_ws.py:42-43 | A topic is read off a trace as added exactly when the trace holds a returned `app_add` for it and the topic is hashable. |
| AppSessionProps.LoopKeepsBookkeeping | routes/routes_ws/app_ws.py:41-54 | Every loop iteration preserves the invariant that the local set equals the added topics read off the trace. |
| AppSessionProps.LoopRecordsExactlyAdded | routes/routes_ws/app_ws.py:18-54 | When the loop stops, a topic is in the local set iff an `app_add` for it returned and it is hashable. A failed `app_add` or an unhashable topic is not recorded. |
| AppSessionProps.StepCallsAddIff | routes/routes_ws/app_ws.py:36-43 | A receive outcome makes a call iff it is a subscribe request. The call is `app_add` on the requested topic, and it returned iff the outcome says so. |
| AppSessionProps.StepRecordsIff | routes/routes_ws/app_ws.py:41-43 | The local set changes iff a subscribe request's `app_add` returned for a hashable topic not yet recorded. It then grows by that topic alone. |
| AppSessionProps.IgnoredFramesChangeNothing | routes/routes_ws/app_ws.py:36-54 | An undecodable frame, a receive error, or a decoded frame that is not a subscribe request leaves the phase, the local set and the calls unchanged. |
| AppSessionProps.ResubscribeKeepsSet | routes/routes_ws/app_ws.py:42-43 | Subscribing again to a recorded topic leaves the set unchanged, but `app_add` is still called. |
| AppSessionProps.UnhashableTopicNotRecorded | routes/routes_ws/app_ws.py:41-54 | For every subscribe request whose topic is a list or an object, an `app_add` that returns appears in the calls, but the topic is not added to the local set and the session stays in the loop. |
| AppSessionProps.StepLeavesIff | routes/routes_ws/app_ws.py:48-54 | One receive outcome ends the loop iff it is a disconnect or a cancellation, raised either by the receive or by the `app_add` of a subscribe request. A disconnect leads to a normal return and a cancellation to a propagated one. |
| AppSessionProps.LoopStaysActiveIff | routes/routes_ws/app_ws.py:30-54 | After any sequence of receive outcomes, the loop is still running iff none of them is a disconnect or a cancellation, whether raised by the receive or by `app_add`. Decoding errors and every other exception never end it. |
| AppSessionProps.LoopStopsAtFirstExit | routes/routes_ws/app_ws.py:50-51 | The first outcome that ends the loop decides how it was left. Nothing after it is received. |
| AppSessionProps.FinallyFollowsPlan | routes/routes_ws/app_ws.py:57-65 | The cleanup walks the topics in set order. Every call but the last is a returned `app_remove` of the next topic. The last call is the first raising `app_remove`, or `close()` once every topic is removed. |
| AppSessionProps.FinallyAllRemoved | routes/routes_ws/app_ws.py:60-63 | If no `app_remove` raises, the cleanup makes one `app_remove` per topic in order, then one `close()`. The session then finishes as the loop was left, unless `close()` was cancelled. |
| AppSessionProps.FinallyStopsAtFailure | routes/routes_ws/app_ws.py:57-65 | The first raising `app_remove` is the last call of the cleanup, so the remaining removals and `close()` are skipped. An error is swallowed, but a cancellation escapes. |
| AppSessionProps.FinallyResumesPending | routes/routes_ws/app_ws.py:56-65 | Unless a cleanup call is cancelled, the session finishes the way the loop was left: a disconnect returns and a cancellation propagates. |
| AppSessionProps.AcceptFailureMakesNoCalls | routes/routes_ws/app_ws.py:20-25 | If accept raises, the session makes no `app_add`, `app_remove` or `close()` call. It propagates a cancellation and returns on any other exception. |
| AppSessionProps.BaseUrlFailureSkipsCleanup | routes/routes_ws/app_ws.py:27-29 | If the base-URL call raises, the exception escapes before the `try` that holds the cleanup. The only call made is that one. |
| AppSessionProps.RemovedTopicsWereAdded | routes/routes_ws/app_ws.py:42-61 | Whatever the outcomes, every topic the session removes, or tries to remove, is hashable and has a returned `app_add` in the calls. |
| AppSessionProps.RemovedWereAdded | routes/routes_ws/app_ws.py:42-61 | Whatever the outcomes, every topic the session removes, or tries to remove, was passed to an `app_add` that returned earlier in the calls than the removal. |
| AppSessionProps.CleanupRemovesExactlyAdded | routes/routes_ws/app_ws.py:41-63 | If no `app_remove` raises, a topic is removed iff its `app_add` returned and it is hashable. No topic is removed twice, and the last call is `close()`. |
| AppSessionProps.SessionExit | routes/routes_ws/app_ws.py:50-65 | Once the loop is left, and provided no cleanup call is cancelled, the session finishes the way the loop was left, even if `app_remove` or `close()` raised an error. The cleanup then makes at least one call. |

## Left out

- The topic registry and broadcast (`app_add`, `app_remove` and `maybe_set_base_url_from_ws`) live in a `utils` module that is not part of this model. Each call is an opaque step that returns or raises; the model gives the registry no meaning.
- routes/routes_ws/__init__.py only composes routers and contains no logic.
- The device, audio and camera handlers are not part of this model.
- WebSocket transport, `receive_text` and `close()` internals: each receive is an abstract outcome (decoded frame, decoding error, disconnect, cancellation, other error).
- JSON parsing: a frame arrives already decoded, or as a decoding failure.
- Numbers are exact reals. `NaN` and `Infinity`, which Python's decoder accepts, are not modelled.
- Python's set treats `true` and `1` as one element; the model treats them as two distinct topics. The JSON numbers `1` and `1.0` are both the real 1 and are one topic, as in Python.
- Python iterates a set in hash order. The cleanup order is an input to the model, required to visit each recorded topic exactly once.
- The loop is folded over a finite sequence of receive outcomes. A transport that keeps raising non-disconnect errors makes the handler loop forever; the model shows any finite prefix of that as a session still receiving.
- Logging (`print`, `log_exc`) is assumed not to raise, and is otherwise without effect on the modelled state. If it did raise (say, a `UnicodeEncodeError` printing an emoji to a non-UTF-8 stdout), the handler would behave differently:
  - at line 22, after a successful accept the handler would return without receiving or closing;
  - at lines 49 and 53, the exception would escape its handler and end the loop;
  - at line 58, every `app_remove` and the `close()` would be skipped.
- asyncio scheduling and concurrent connections are left out: the model covers one session's sequential behaviour.

=== FILE: app_session.dfy ===
/**
  One app connection's subscription session (`ws_app`), as a pure state
  machine: accept, a receive loop folded over a finite sequence of receive
  outcomes, and the cleanup that runs when the loop is left.

  The registry helpers (`app_add`, `app_remove`, `maybe_set_base_url_from_ws`)
  are opaque: the model records only which of them the handler calls, in
  which order, and whether each call raised. Their outcomes are inputs.
 */
module AppSession {
  import opened JsonValue

  /** What a call can raise: `WebSocketDisconnect`, which the receive loop
      turns into a normal exit wherever in its body it is raised; any other
      `Exception`; or a `BaseException` that is not an `Exception` (the
      task's cancellation, or a `KeyboardInterrupt` or `SystemExit` raised
      inside an `await`), which escapes every `except Exception` clause of
      the handler. Outside the receive loop a disconnect is just an
      `Exception`. */
  datatype Failure = Disconnected | Error | Cancelled

  /** The outcome of one call into the transport or the registry helpers. */
  datatype Outcome = Ok | Raises(failure: Failure)

  /** The outcome of one `receive_text()` as the loop observes it. A frame
      that decodes carries the outcome of the `app_add` call the handler would
      make for it (ignored unless the frame is a subscribe request). */
  datatype Event =
    | Frame(msg: Json, add: Outcome)
    | BadJson        // `json.loads` raised a decoding error
    | Disconnect     // the peer went away: `WebSocketDisconnect`
    | Cancel         // the task was cancelled while waiting for a frame
    | ReceiveError   // any other `Exception` raised while receiving

  /** A call the handler makes to `maybe_set_base_url_from_ws`, `app_add`,
      `app_remove` or `close()`, and whether it raised. Calls to `accept()`,
      `receive_text()`, `json.loads` and the logging functions are not
      recorded; their outcomes are inputs. */
  datatype Call =
    | BaseUrl | BaseUrlFails
    | Add(topic: Json) | AddFails(topic: Json)
    | Remove(topic: Json) | RemoveFails(topic: Json)
    | Close | CloseFails

  /** How the coroutine finishes: it returns, or an exception escapes it. */
  datatype Exit = Returned | Raised(failure: Failure)

  /** Active while the receive loop runs; Closing carries the way the loop
      was left, which the `finally` block resumes once it is done. (The
      connecting phase is the call to `Open` itself.) */
  datatype Phase = Active | Closing(pending: Exit) | Closed(exit: Exit)

  /** The handler's local state: its phase, the local `subscribed_topics`
      set, and the calls made so far. */
  datatype State = State(phase: Phase, subscribed: set<Json>, trace: seq<Call>)

  /** A call made while the receive loop runs. */
  predicate LoopCall(c: Call) {
    c.Add? || c.AddFails?
  }

  /** The exit after the cleanup swallowed an `Exception` or let a
      cancellation through: an error is swallowed and the pending exit is
      resumed, a cancellation replaces it. */
  function Resume(pending: Exit, f: Failure): (e: Exit)
    ensures e == pending || e == Raised(Cancelled)
    ensures e == pending <==> f != Cancelled || pending == Raised(Cancelled)
  {
    if f == Cancelled then Raised(Cancelled) else pending
  }

  /** Accept the connection, then record the base URL. A failed accept is
      logged and the handler returns before it has made any recorded call; a
      cancelled accept escapes. The base-URL call sits outside every `try`, so if it
      raises the exception escapes with no cleanup and no `close()`. */
  function Open(accept: Outcome, baseUrl: Outcome): (s: State)
    ensures s.subscribed == {}
    ensures s.phase.Active? || s.phase.Closed?
    ensures s.phase.Active? <==> accept.Ok? && baseUrl.Ok?
    ensures accept.Raises? ==> s.trace == []
    ensures accept.Ok? ==> |s.trace| == 1 && (s.trace[0] == BaseUrl <==> baseUrl.Ok?)
    ensures forall c :: c in s.trace ==> c.BaseUrl? || c.BaseUrlFails?
    ensures s.phase == Closed(Returned) <==> accept.Raises? && accept.failure != Cancelled
  {
    match accept
    case Raises(Cancelled) => State(Closed(Raised(Cancelled)), {}, [])
    case Raises(_) => State(Closed(Returned), {}, [])
    case Ok =>
      match baseUrl
      case Ok => State(Active, {}, [BaseUrl])
      case Raises(f) => State(Closed(Raised(f)), {}, [BaseUrlFails])
  }

  /** One iteration of the receive loop. Only an active session receives. */
  function Step(s: State, e: Event): (r: State)
    ensures !s.phase.Active? ==> r == s
    ensures s.phase.Active? ==> r.phase.Active? || r.phase.Closing?
    ensures s.subscribed <= r.subscribed
    ensures |s.trace| <= |r.trace| <= |s.trace| + 1
    ensures r.trace[..|s.trace|] == s.trace
    ensures forall i :: |s.trace| <= i < |r.trace| ==> LoopCall(r.trace[i])
  {
    if !s.phase.Active? then s
    else
      match e
      case Frame(msg, add) => Handle(s, msg, add)
      case BadJson => s
      case ReceiveError => s
      case Disconnect => s.(phase := Closing(Returned))
      case Cancel => s.(phase := Closing(Raised(Cancelled)))
  }

  /** A decoded frame. A subscribe request calls `app_add` and, when that
      returns, inserts the topic into the local set; inserting an unhashable
      topic raises, which the loop logs and survives, so such a topic is
      added to the registry but not recorded. An `app_add` error is logged
      and the loop goes on; a cancellation leaves the loop. A frame that is
      not a subscribe request changes nothing. A `WebSocketDisconnect` out of
      `app_add` is caught by the same clause as one out of `receive_text`: the
      loop is left and the handler will return normally. */
  function Handle(s: State, msg: Json, add: Outcome): (r: State)
    ensures !Classify(msg).Subscribe? ==> r == s
    ensures Classify(msg).Subscribe? ==>
      && |r.trace| == |s.trace| + 1
      && r.trace[..|s.trace|] == s.trace
      && r.trace[|s.trace|] in {Add(Classify(msg).topic), AddFails(Classify(msg).topic)}
    ensures r.phase != s.phase ==> add.Raises? && add.failure != Error
  {
    match Classify(msg)
    case Subscribe(t) =>
      (match add
       case Ok =>
         if Hashable(t) then s.(subscribed := s.subscribed + {t}, trace := s.trace + [Add(t)])
         else s.(trace := s.trace + [Add(t)])
       case Raises(Error) => s.(trace := s.trace + [AddFails(t)])
       case Raises(Disconnected) => s.(phase := Closing(Returned), trace := s.trace + [AddFails(t)])
       case Raises(Cancelled) => s.(phase := Closing(Raised(Cancelled)), trace := s.trace + [AddFails(t)]))
    case _ => s
  }

  /** The `while True` loop, folded over the frames it receives. Once the
      loop is left, later receive outcomes are never observed. */
  function Loop(s: State, events: seq<Event>): (r: State)
    ensures !s.phase.Active? ==> r == s
    ensures s.phase.Active? ==> r.phase.Active? || r.phase.Closing?
    ensures s.subscribed <= r.subscribed
    ensures |s.trace| <= |r.trace| <= |s.trace| + |events|
    ensures r.trace[..|s.trace|] == s.trace
    ensures forall i :: |s.trace| <= i < |r.trace| ==> LoopCall(r.trace[i])
    decreases |events|
  {
    if |events| == 0 then s else Loop(Step(s, events[0]), events[1..])
  }

  /** The `finally` block: `app_remove` for each topic in the order the set
      is iterated (paired with each call's outcome), then `close()`. The
      first call that raises ends the block. An `Exception` is swallowed and
      the way the loop was left is resumed; a cancellation escapes instead. */
  function Finally(s: State, plan: seq<(Json, Outcome)>, close: Outcome): (r: State)
    requires s.phase.Closing?
    ensures r.phase.Closed?
    ensures r.phase.exit == s.phase.pending || r.phase.exit == Raised(Cancelled)
    ensures r.subscribed == s.subscribed
    ensures |s.trace| < |r.trace| <= |s.trace| + |plan| + 1
    ensures r.trace[..|s.trace|] == s.trace
    decreases |plan|
  {
    if |plan| == 0 then
      match close
      case Ok => s.(phase := Closed(s.phase.pending), trace := s.trace + [Close])
      case Raises(f) => s.(phase := Closed(Resume(s.phase.pending, f)), trace := s.trace + [CloseFails])
    else
      match plan[0].1
      case Ok => Finally(s.(trace := s.trace + [Remove(plan[0].0)]), plan[1..], close)
      case Raises(f) => s.(phase := Closed(Resume(s.phase.pending, f)), trace := s.trace + [RemoveFails(plan[0].0)])
  }

  /** Everything the environment decides for one connection: the outcomes of
      `accept()` and of the base-URL call, the receive outcomes in order, the
      order in which the local set is iterated at cleanup with each
      `app_remove` outcome, and the outcome of `close()`. */
  datatype Env = Env(
    accept: Outcome,
    baseUrl: Outcome,
    events: seq<Event>,
    cleanup: seq<(Json, Outcome)>,
    close: Outcome)

  /** `plan` visits every element of `topics` exactly once, which is what
      iterating a Python set does (in an order the model leaves open). */
  predicate Enumerates(plan: seq<(Json, Outcome)>, topics: set<Json>) {
    && (forall i, j :: 0 <= i < j < |plan| ==> plan[i].0 != plan[j].0)
    && (set i | 0 <= i < |plan| :: plan[i].0) == topics
  }

  /** The state when the receive loop has consumed every given event. */
  function AfterLoop(env: Env): State {
    Loop(Open(env.accept, env.baseUrl), env.events)
  }

  /** The cleanup order must enumerate the set the loop left behind. */
  predicate ValidEnv(env: Env) {
    AfterLoop(env).phase.Closing? ==> Enumerates(env.cleanup, AfterLoop(env).subscribed)
  }

  /** The whole handler. The result is Active when the loop is still waiting
      for a frame after the given ones, and Closed otherwise. */
  function Run(env: Env): (r: State)
    requires ValidEnv(env)
    ensures r.phase.Active? || r.phase.Closed?
    ensures env.accept.Raises? ==> r.phase.Closed? && r.trace == []
    ensures r.phase.Active? ==> env.accept.Ok? && env.baseUrl.Ok?
  {
    var s := AfterLoop(env);
    if s.phase.Closing? then Finally(s, env.cleanup, env.close) else s
  }
}

=== FILE: app_session_props.dfy ===
/**
  Properties of the app subscription session: how one frame is handled,
  when the receive loop is left, what the cleanup does on success and on
  failure, and the bookkeeping claim that ties them together — the cleanup
  removes exactly the topics whose `app_add` returned and that the local set
  could hold.
 */
module AppSessionProps {
  import opened JsonValue
  import opened AppSession

  // ---------------------------------------------------------------------
  // Bookkeeping: the local set against the calls made so far
  // ---------------------------------------------------------------------

  /** The hashable topics of the `app_add` calls that returned, read off a trace. */
  function AddedTopics(tr: seq<Call>): (topics: set<Json>)
    decreases |tr|
  {
    if |tr| == 0 then {}
    else
      var last := tr[|tr| - 1];
      AddedTopics(tr[..|tr| - 1]) + (if last.Add? && Hashable(last.topic) then {last.topic} else {})
  }

  lemma AddedTopicsSnoc(tr: seq<Call>, c: Call)
    ensures AddedTopics(tr + [c]) == AddedTopics(tr) + (if c.Add? && Hashable(c.topic) then {c.topic} else {})
  {
  }

  /** A topic is read off a trace exactly when the trace holds a returned
      `app_add` for it and the topic is hashable. */
  lemma {:induction false} AddedTopicsMeaning(tr: seq<Call>)
    ensures forall t :: t in AddedTopics(tr) <==> Add(t) in tr && Hashable(t)
  {
    if |tr| > 0 {
      var init := tr[..|tr| - 1];
      AddedTopicsMeaning(init);
      AddedTopicsSnoc(init, tr[|tr| - 1]);
      assert tr == init + [tr[|tr| - 1]];
    }
  }

  /** The local set is exactly what the trace says was accepted and recorded. */
  predicate Bookkeeping(s: State) {
    s.subscribed == AddedTopics(s.trace)
  }

  lemma OpenKeepsBookkeeping(accept: Outcome, baseUrl: Outcome)
    ensures Bookkeeping(Open(accept, baseUrl))
  {
  }

  lemma StepKeepsBookkeeping(s: State, e: Event)
    requires Bookkeeping(s)
    ensures Bookkeeping(Step(s, e))
  {
    if s.phase.Active? && e.Frame? && Classify(e.msg).Subscribe? {
      var t := Classify(e.msg).topic;
      var c := if e.add.Ok? then Add(t) else AddFails(t);
      assert Step(s, e) == Handle(s, e.msg, e.add);
      assert Step(s, e).trace == s.trace + [c];
      AddedTopicsSnoc(s.trace, c);
    } else {
      assert Step(s, e).subscribed == s.subscribed && Step(s, e).trace == s.trace;
    }
  }

  lemma {:induction false} LoopKeepsBookkeeping(s: State, events: seq<Event>)
    requires Bookkeeping(s)
    ensures Bookkeeping(Loop(s, events))
    decreases |events|
  {
    if |events| > 0 {
      StepKeepsBookkeeping(s, events[0]);
      LoopKeepsBookkeeping(Step(s, events[0]), events[1..]);
    }
  }

  /** While the loop runs and when it is left, a topic is in the local set
      exactly when an `app_add` for it returned and the topic is hashable:
      a failed `app_add` or an unhashable topic is never recorded, and every
      recorded topic was handed to `app_add`. */
  lemma LoopRecordsExactlyAdded(env: Env)
    ensures forall t :: t in AfterLoop(env).subscribed <==> Add(t) in AfterLoop(env).trace && Hashable(t)
  {
    OpenKeepsBookkeeping(env.accept, env.baseUrl);
    LoopKeepsBookkeeping(Open(env.accept, env.baseUrl), env.events);
    AddedTopicsMeaning(AfterLoop(env).trace);
  }

  // ---------------------------------------------------------------------
  // One frame
  // ---------------------------------------------------------------------

  /** A frame makes a call exactly when it is a subscribe request, and the
      call is `app_add` on the requested topic, returned or raised. */
  lemma StepCallsAddIff(s: State, e: Event)
    requires s.phase.Active?
    ensures Step(s, e).trace != s.trace <==> e.Frame? && Classify(e.msg).Subscribe?
    ensures e.Frame? && Classify(e.msg).Subscribe? ==>
      Step(s, e).trace == s.trace + [if e.add.Ok? then Add(Classify(e.msg).topic) else AddFails(Classify(e.msg).topic)]
  {
  }

  /** The local set grows exactly when a subscribe request's `app_add`
      returned for a hashable topic not yet recorded, and then by that topic
      alone. */
  lemma StepRecordsIff(s: State, e: Event)
    requires s.phase.Active?
    ensures Step(s, e).subscribed != s.subscribed <==>
      && e.Frame? && Classify(e.msg).Subscribe? && e.add.Ok?
      && Hashable(Classify(e.msg).topic) && Classify(e.msg).topic !in s.subscribed
    ensures Step(s, e).subscribed == s.subscribed
         || Step(s, e).subscribed == s.subscribed + {Classify(e.msg).topic}
  {
  }

  /** A frame that does not decode, a receive error, and a decoded frame that
      is not a subscribe request (including a value that is not an object)
      leave the session exactly as it was, still in the loop. */
  lemma IgnoredFramesChangeNothing(s: State, e: Event)
    requires s.phase.Active?
    requires e.BadJson? || e.ReceiveError? || (e.Frame? && !Classify(e.msg).Subscribe?)
    ensures Step(s, e) == s
  {
  }

  /** Subscribing again to a recorded topic leaves the set as it is, though
      `app_add` is still called. */
  lemma ResubscribeKeepsSet(s: State, msg: Json)
    requires s.phase.Active?
    requires Classify(msg).Subscribe? && Classify(msg).topic in s.subscribed
    ensures Step(s, Frame(msg, Ok)).subscribed == s.subscribed
    ensures Step(s, Frame(msg, Ok)).trace == s.trace + [Add(Classify(msg).topic)]
  {
  }

  /** A topic that is a list or an object is handed to `app_add`, and when
      that returns the topic cannot be recorded: the cleanup will not remove it. */
  lemma UnhashableTopicNotRecorded(s: State, msg: Json)
    requires s.phase.Active?
    requires Classify(msg).Subscribe? && !Hashable(Classify(msg).topic)
    ensures Step(s, Frame(msg, Ok)).trace == s.trace + [Add(Classify(msg).topic)]
    ensures Step(s, Frame(msg, Ok)).subscribed == s.subscribed
    ensures Step(s, Frame(msg, Ok)).phase.Active?
  {
  }

  // ---------------------------------------------------------------------
  // Leaving the loop
  // ---------------------------------------------------------------------

  /** The receive outcomes that end the loop: a disconnect, which breaks out
      of it, and a cancellation, which no `except Exception` catches —
      whether either arrives while receiving or inside `app_add`. */
  predicate LeavesLoop(e: Event) {
    || e.Disconnect?
    || e.Cancel?
    || (e.Frame? && Classify(e.msg).Subscribe? && e.add in {Raises(Disconnected), Raises(Cancelled)})
  }

  /** How the coroutine will finish once cleanup is done, given the event
      that ended the loop: a disconnect returns, a cancellation propagates. */
  function PendingExit(e: Event): (x: Exit)
    ensures x == Returned <==> e.Disconnect? || (e.Frame? && e.add == Raises(Disconnected))
  {
    if e.Disconnect? || (e.Frame? && e.add == Raises(Disconnected)) then Returned else Raised(Cancelled)
  }

  lemma StepLeavesIff(s: State, e: Event)
    requires s.phase.Active?
    ensures Step(s, e).phase.Active? <==> !LeavesLoop(e)
    ensures LeavesLoop(e) ==> Step(s, e).phase == Closing(PendingExit(e))
  {
  }

  /** The loop is still running after a sequence of receive outcomes exactly
      when none of them ends it; every other error keeps it going. */
  lemma {:induction false} LoopStaysActiveIff(s: State, events: seq<Event>)
    requires s.phase.Active?
    ensures Loop(s, events).phase.Active? <==> forall i :: 0 <= i < |events| ==> !LeavesLoop(events[i])
    decreases |events|
  {
    if |events| > 0 {
      StepLeavesIff(s, events[0]);
      if !LeavesLoop(events[0]) {
        LoopStaysActiveIff(Step(s, events[0]), events[1..]);
        assert forall i :: 1 <= i < |events| ==> events[i] == events[1..][i - 1];
      }
    }
  }

  /** The first outcome that ends the loop decides how it was left, and
      nothing after it is ever received. */
  lemma {:induction false} LoopStopsAtFirstExit(s: State, events: seq<Event>, k: nat)
    requires s.phase.Active?
    requires k < |events| && LeavesLoop(events[k])
    requires forall i :: 0 <= i < k ==> !LeavesLoop(events[i])
    ensures Loop(s, events) == Loop(s, events[..k + 1])
    ensures Loop(s, events).phase == Closing(PendingExit(events[k]))
    decreases k
  {
    var prefix := events[..k + 1];
    assert prefix[0] == events[0];
    StepLeavesIff(s, events[0]);
    if k == 0 {
      assert Loop(s, events) == Step(s, events[0]);
      assert Loop(s, prefix) == Step(s, events[0]);
    } else {
      var s' := Step(s, events[0]);
      assert forall i :: 0 <= i < k - 1 ==> events[1..][i] == events[i + 1];
      LoopStopsAtFirstExit(s', events[1..], k - 1);
      assert events[1..][..k] == prefix[1..];
    }
  }

  // ---------------------------------------------------------------------
  // The finally block
  // ---------------------------------------------------------------------

  /** The `finally` block never calls `app_add`. */
  lemma FinallyMakesNoAdd(s: State, plan: seq<(Json, Outcome)>, close: Outcome)
    requires s.phase.Closing?
    ensures forall i :: |s.trace| <= i < |Finally(s, plan, close).trace| ==>
      !Finally(s, plan, close).trace[i].Add? && !Finally(s, plan, close).trace[i].AddFails?
  {
    var r := Finally(s, plan, close);
    FinallyFollowsPlan(s, plan, close);
    forall i | |s.trace| <= i < |r.trace|
      ensures !r.trace[i].Add? && !r.trace[i].AddFails?
    {
      if i < |r.trace| - 1 {
        assert r.trace[|s.trace| + (i - |s.trace|)] == Remove(plan[i - |s.trace|].0);
      }
    }
  }

  /** When no `app_remove` raises, the cleanup makes one call per planned
      topic and one `close()`, and finishes as `close()` lets it. */
  lemma {:induction false} FinallyAllOkShape(s: State, plan: seq<(Json, Outcome)>, close: Outcome)
    requires s.phase.Closing?
    requires forall k :: 0 <= k < |plan| ==> plan[k].1 == Ok
    ensures |Finally(s, plan, close).trace| == |s.trace| + |plan| + 1
    ensures Finally(s, plan, close).phase ==
      Closed(if close.Ok? then s.phase.pending else Resume(s.phase.pending, close.failure))
    decreases |plan|
  {
    if |plan| > 0 {
      var rest := plan[1..];
      assert forall j :: 0 <= j < |rest| ==> rest[j] == plan[j + 1];
      FinallyAllOkShape(s.(trace := s.trace + [Remove(plan[0].0)]), rest, close);
    }
  }

  /** The cleanup follows the plan: every call but the last is a returned
      `app_remove` of the next planned topic, and the last call is either the
      first raising `app_remove`, or `close()` once every topic is removed. */
  lemma {:induction false} FinallyFollowsPlan(s: State, plan: seq<(Json, Outcome)>, close: Outcome)
    requires s.phase.Closing?
    ensures var r := Finally(s, plan, close);
      forall k :: 0 <= k < |r.trace| - |s.trace| - 1 ==> r.trace[|s.trace| + k] == Remove(plan[k].0) && plan[k].1 == Ok
    ensures var r := Finally(s, plan, close); var n := |r.trace| - |s.trace| - 1;
      && (n < |plan| ==> r.trace[|r.trace| - 1] == RemoveFails(plan[n].0) && plan[n].1.Raises?)
      && (n == |plan| ==> r.trace[|r.trace| - 1] == (if close.Ok? then Close else CloseFails))
    decreases |plan|
  {
    if |plan| > 0 && plan[0].1.Ok? {
      var s' := s.(trace := s.trace + [Remove(plan[0].0)]);
      var rest := plan[1..];
      FinallyFollowsPlan(s', rest, close);
      var r := Finally(s, plan, close);
      assert r == Finally(s', rest, close);
      forall k | 0 <= k < |r.trace| - |s.trace| - 1
        ensures r.trace[|s.trace| + k] == Remove(plan[k].0) && plan[k].1 == Ok
      {
        if k == 0 {
          assert r.trace[..|s'.trace|] == s'.trace;
          assert r.trace[|s.trace|] == s'.trace[|s.trace|];
        } else {
          assert rest[k - 1] == plan[k];
        }
      }
      var n := |r.trace| - |s.trace| - 1;
      if n < |plan| {
        assert rest[n - 1] == plan[n];
      }
    }
  }

  /** When no `app_remove` raises, the cleanup removes each planned topic in
      order, exactly once, and then calls `close()`. */
  lemma FinallyAllRemoved(s: State, plan: seq<(Json, Outcome)>, close: Outcome)
    requires s.phase.Closing?
    requires forall k :: 0 <= k < |plan| ==> plan[k].1 == Ok
    ensures |Finally(s, plan, close).trace| == |s.trace| + |plan| + 1
    ensures forall k :: 0 <= k < |plan| ==> Finally(s, plan, close).trace[|s.trace| + k] == Remove(plan[k].0)
    ensures Finally(s, plan, close).trace[|s.trace| + |plan|] == (if close.Ok? then Close else CloseFails)
    ensures Finally(s, plan, close).phase ==
      Closed(if close.Ok? then s.phase.pending else Resume(s.phase.pending, close.failure))
  {
    FinallyAllOkShape(s, plan, close);
    FinallyFollowsPlan(s, plan, close);
  }

  /** The cleanup up to its first raising `app_remove`: one call per topic up
      to and including that one, which is the last call of the block. */
  lemma {:induction false} FinallyFailureShape(s: State, plan: seq<(Json, Outcome)>, close: Outcome, k: nat)
    requires s.phase.Closing?
    requires k < |plan| && plan[k].1.Raises?
    requires forall j :: 0 <= j < k ==> plan[j].1 == Ok
    ensures |Finally(s, plan, close).trace| == |s.trace| + k + 1
    ensures Finally(s, plan, close).trace[|s.trace| + k] == RemoveFails(plan[k].0)
    ensures Finally(s, plan, close).phase == Closed(Resume(s.phase.pending, plan[k].1.failure))
    decreases k
  {
    if k > 0 {
      var rest := plan[1..];
      assert rest[k - 1] == plan[k];
      assert forall j :: 0 <= j < k - 1 ==> rest[j] == plan[j + 1];
      FinallyFailureShape(s.(trace := s.trace + [Remove(plan[0].0)]), rest, close, k - 1);
    }
  }

  /** The first `app_remove` that raises ends the cleanup: the remaining
      removals and `close()` are skipped. An error is swallowed and the
      session finishes the way the loop was left; a cancellation escapes. */
  lemma FinallyStopsAtFailure(s: State, plan: seq<(Json, Outcome)>, close: Outcome, k: nat)
    requires s.phase.Closing?
    requires k < |plan| && plan[k].1.Raises?
    requires forall j :: 0 <= j < k ==> plan[j].1 == Ok
    ensures |Finally(s, plan, close).trace| == |s.trace| + k + 1
    ensures forall j :: 0 <= j < k ==> Finally(s, plan, close).trace[|s.trace| + j] == Remove(plan[j].0)
    ensures Finally(s, plan, close).trace[|s.trace| + k] == RemoveFails(plan[k].0)
    ensures Finally(s, plan, close).phase == Closed(Resume(s.phase.pending, plan[k].1.failure))
  {
    FinallyFailureShape(s, plan, close, k);
    FinallyFollowsPlan(s, plan, close);
  }

  /** Unless a cleanup call is cancelled, the cleanup swallows every error and
      the session finishes the way the loop was left. */
  lemma {:induction false} FinallyResumesPending(s: State, plan: seq<(Json, Outcome)>, close: Outcome)
    requires s.phase.Closing?
    requires forall k :: 0 <= k < |plan| ==> plan[k].1 != Raises(Cancelled)
    requires close != Raises(Cancelled)
    ensures Finally(s, plan, close).phase == Closed(s.phase.pending)
    decreases |plan|
  {
    if |plan| > 0 && plan[0].1 == Ok {
      var rest := plan[1..];
      assert forall k :: 0 <= k < |rest| ==> rest[k] == plan[k + 1];
      FinallyResumesPending(s.(trace := s.trace + [Remove(plan[0].0)]), rest, close);
    }
  }

  // ---------------------------------------------------------------------
  // The whole session
  // ---------------------------------------------------------------------

  /** A failed or cancelled accept ends the session before any recorded
      call: no `app_add`, no `app_remove`, no `close()`. */
  lemma AcceptFailureMakesNoCalls(env: Env)
    requires ValidEnv(env)
    requires env.accept.Raises?
    ensures Run(env).trace == []
    ensures Run(env).phase == Closed(if env.accept.failure == Cancelled then Raised(Cancelled) else Returned)
  {
  }

  /** If the base-URL call raises, its exception escapes before the `try`
      whose `finally` does the cleanup: nothing is removed or closed. */
  lemma BaseUrlFailureSkipsCleanup(env: Env)
    requires ValidEnv(env)
    requires env.accept.Ok? && env.baseUrl.Raises?
    ensures Run(env) == State(Closed(Raised(env.baseUrl.failure)), {}, [BaseUrlFails])
  {
  }

  /** The calls made before the `finally` block: the base-URL call and the
      `app_add` calls of the loop, never a removal or a close. */
  lemma LoopMakesNoCleanupCalls(env: Env)
    ensures forall c :: c in AfterLoop(env).trace ==> c.BaseUrl? || c.BaseUrlFails? || LoopCall(c)
  {
  }

  lemma PrefixKeepsCalls(a: seq<Call>, b: seq<Call>, c: Call)
    requires |a| <= |b| && b[..|a|] == a
    requires c in a
    ensures c in b
  {
  }

  /** The i-th call of the `finally` block, if it is a removal, is about
      the i-th planned topic. */
  lemma FinallyRemovesOnlyPlanned(s: State, plan: seq<(Json, Outcome)>, close: Outcome)
    requires s.phase.Closing?
    ensures forall i ::
      (&& |s.trace| <= i < |Finally(s, plan, close).trace|
       && (Finally(s, plan, close).trace[i].Remove? || Finally(s, plan, close).trace[i].RemoveFails?))
      ==> i - |s.trace| < |plan| && Finally(s, plan, close).trace[i].topic == plan[i - |s.trace|].0
  {
    var r := Finally(s, plan, close);
    FinallyFollowsPlan(s, plan, close);
    forall i | |s.trace| <= i < |r.trace| && (r.trace[i].Remove? || r.trace[i].RemoveFails?)
      ensures i - |s.trace| < |plan| && r.trace[i].topic == plan[i - |s.trace|].0
    {
      if i < |r.trace| - 1 {
        assert r.trace[|s.trace| + (i - |s.trace|)] == Remove(plan[i - |s.trace|].0);
      }
    }
  }

  /** Every topic the cleanup removes or tries to remove is a hashable topic
      with a returned `app_add` somewhere in the trace. */
  lemma RemovedTopicsWereAdded(env: Env)
    requires ValidEnv(env)
    ensures forall t :: Remove(t) in Run(env).trace || RemoveFails(t) in Run(env).trace ==>
      Add(t) in Run(env).trace && Hashable(t)
  {
    var s := AfterLoop(env);
    var r := Run(env);
    var plan := env.cleanup;
    LoopRecordsExactlyAdded(env);
    LoopMakesNoCleanupCalls(env);
    if !s.phase.Closing? {
      return;
    }
    FinallyRemovesOnlyPlanned(s, plan, env.close);
    forall t | Remove(t) in r.trace || RemoveFails(t) in r.trace
      ensures Add(t) in r.trace && Hashable(t)
    {
      var i :| 0 <= i < |r.trace| && (r.trace[i] == Remove(t) || r.trace[i] == RemoveFails(t));
      assert i >= |s.trace|;
      assert t == plan[i - |s.trace|].0;
      assert t in (set j | 0 <= j < |plan| :: plan[j].0);
      PrefixKeepsCalls(s.trace, r.trace, Add(t));
    }
  }

  /** Whatever the cleanup outcomes, every topic the session removes or tries
      to remove is hashable and was accepted by an `app_add` call that comes
      earlier in the trace. */
  lemma RemovedWereAdded(env: Env)
    requires ValidEnv(env)
    ensures forall t :: Remove(t) in Run(env).trace || RemoveFails(t) in Run(env).trace ==>
      Add(t) in Run(env).trace && Hashable(t)
    ensures forall i :: 0 <= i < |Run(env).trace| && (Run(env).trace[i].Remove? || Run(env).trace[i].RemoveFails?) ==>
      Add(Run(env).trace[i].topic) in Run(env).trace[..i]
  {
    var s := AfterLoop(env);
    var r := Run(env);
    var plan := env.cleanup;
    RemovedTopicsWereAdded(env);
    LoopRecordsExactlyAdded(env);
    LoopMakesNoCleanupCalls(env);
    if !s.phase.Closing? {
      return;
    }
    FinallyRemovesOnlyPlanned(s, plan, env.close);
    forall i | 0 <= i < |r.trace| && (r.trace[i].Remove? || r.trace[i].RemoveFails?)
      ensures Add(r.trace[i].topic) in r.trace[..i]
    {
      var t := r.trace[i].topic;
      assert i >= |s.trace|;
      assert t == plan[i - |s.trace|].0;
      assert t in (set j | 0 <= j < |plan| :: plan[j].0);
      assert Add(t) in s.trace;
      assert r.trace[..i][..|s.trace|] == s.trace;
      PrefixKeepsCalls(s.trace, r.trace[..i], Add(t));
    }
  }

  /** When no `app_remove` raises, every hashable topic whose `app_add`
      returned is removed. */
  lemma AddedAreRemoved(env: Env)
    requires ValidEnv(env)
    requires AfterLoop(env).phase.Closing?
    requires forall k :: 0 <= k < |env.cleanup| ==> env.cleanup[k].1 == Ok
    ensures forall t :: Add(t) in Run(env).trace && Hashable(t) ==> Remove(t) in Run(env).trace
  {
    var s := AfterLoop(env);
    var r := Run(env);
    var plan := env.cleanup;
    LoopRecordsExactlyAdded(env);
    FinallyAllRemoved(s, plan, env.close);
    FinallyMakesNoAdd(s, plan, env.close);
    forall t | Add(t) in r.trace && Hashable(t)
      ensures Remove(t) in r.trace
    {
      var n :| 0 <= n < |r.trace| && r.trace[n] == Add(t);
      assert n < |s.trace|;
      assert r.trace[..|s.trace|] == s.trace;
      assert s.trace[n] == r.trace[n];
      assert t in (set j | 0 <= j < |plan| :: plan[j].0);
      var k :| 0 <= k < |plan| && plan[k].0 == t;
      assert r.trace[|s.trace| + k] == Remove(t);
    }
  }

  /** No topic is removed twice. */
  lemma RemovesAreDistinct(env: Env)
    requires ValidEnv(env)
    requires AfterLoop(env).phase.Closing?
    requires forall k :: 0 <= k < |env.cleanup| ==> env.cleanup[k].1 == Ok
    ensures forall i, j :: 0 <= i < j < |Run(env).trace| && Run(env).trace[i].Remove? ==>
      Run(env).trace[i] != Run(env).trace[j]
  {
    var s := AfterLoop(env);
    var r := Run(env);
    var plan := env.cleanup;
    LoopMakesNoCleanupCalls(env);
    FinallyAllRemoved(s, plan, env.close);
    forall i, j | 0 <= i < j < |r.trace| && r.trace[i].Remove?
      ensures r.trace[i] != r.trace[j]
    {
      assert i >= |s.trace|;
      if j < |r.trace| - 1 {
        assert r.trace[i] == Remove(plan[i - |s.trace|].0);
        assert r.trace[j] == Remove(plan[j - |s.trace|].0);
      }
    }
  }

  /** When no `app_remove` raises, the cleanup calls `app_remove` exactly once
      for each hashable topic whose `app_add` returned, for no other topic,
      and then calls `close()`. */
  lemma CleanupRemovesExactlyAdded(env: Env)
    requires ValidEnv(env)
    requires AfterLoop(env).phase.Closing?
    requires forall k :: 0 <= k < |env.cleanup| ==> env.cleanup[k].1 == Ok
    ensures forall t :: Remove(t) in Run(env).trace <==> Add(t) in Run(env).trace && Hashable(t)
    ensures forall i, j :: 0 <= i < j < |Run(env).trace| && Run(env).trace[i].Remove? ==>
      Run(env).trace[i] != Run(env).trace[j]
    ensures Run(env).trace[|Run(env).trace| - 1] == (if env.close.Ok? then Close else CloseFails)
  {
    RemovedTopicsWereAdded(env);
    AddedAreRemoved(env);
    RemovesAreDistinct(env);
    FinallyAllRemoved(AfterLoop(env), env.cleanup, env.close);
  }

  /** A session left by cancellation still runs its cleanup, and the
      cancellation then propagates; a session left by disconnect finishes
      normally unless a cleanup call is itself cancelled. */
  lemma SessionExit(env: Env)
    requires ValidEnv(env)
    requires AfterLoop(env).phase.Closing?
    requires forall k :: 0 <= k < |env.cleanup| ==> env.cleanup[k].1 != Raises(Cancelled)
    requires env.close != Raises(Cancelled)
    ensures Run(env).phase == Closed(AfterLoop(env).phase.pending)
    ensures |Run(env).trace| > |AfterLoop(env).trace|
  {
    FinallyResumesPending(AfterLoop(env), env.cleanup, env.close);
  }
}

=== FILE: json_value.dfy ===
/**
  Decoded JSON values, as the app handler sees a text frame after it has been
  parsed, together with the two Python notions the handler relies on:
  truthiness (the `and topic` test) and hashability (`set.add`).
  Parsing itself is not modelled: a frame arrives either already decoded or
  as a decoding failure.
 */
module JsonValue {

  /** A decoded JSON document. Numbers are kept as exact reals. */
  datatype Json =
    | JNull
    | JBool(b: bool)
    | JNumber(n: real)
    | JString(s: string)
    | JArray(items: seq<Json>)
    | JObject(fields: map<string, Json>)

  /** Python truthiness of a decoded value: `None`, `False`, zero and empty
      containers are false, everything else is true. */
  predicate Truthy(v: Json) {
    match v
    case JNull => false
    case JBool(b) => b
    case JNumber(n) => n != 0.0
    case JString(s) => s != ""
    case JArray(items) => items != []
    case JObject(fields) => fields != map[]
  }

  /** Decoded lists and dicts are unhashable, so `set.add` raises on them. */
  predicate Hashable(v: Json) {
    !v.JArray? && !v.JObject?
  }

  /** `dict.get(key)`: a missing key reads as `None`. */
  function Get(fields: map<string, Json>, key: string): (v: Json) {
    if key in fields then fields[key] else JNull
  }

  /** The only control message the app endpoint understands. */
  const SubscribeAction: Json := JString("subscribe")

  /** How the receive loop reads one decoded frame. */
  datatype Request =
    | Subscribe(topic: Json)  // an object whose action is "subscribe" and whose topic is truthy
    | NotAnObject             // `.get` is not defined on the value: the handler's generic error path
    | NotASubscribe           // an object without a usable subscribe request: silently ignored

  /** The frame is a subscribe request exactly when it is an object holding
      the key "action" bound to the string "subscribe" and the key "topic"
      bound to a truthy value; that value is the topic. */
  function Classify(msg: Json): (r: Request)
    ensures r.NotAnObject? <==> !msg.JObject?
    ensures r.Subscribe? ==>
      && msg.JObject?
      && "action" in msg.fields && msg.fields["action"] == JString("subscribe")
      && "topic" in msg.fields && msg.fields["topic"] == r.topic
      && Truthy(r.topic)
    ensures r.NotASubscribe? ==>
      && msg.JObject?
      && !("action" in msg.fields && msg.fields["action"] == JString("subscribe")
           && "topic" in msg.fields && Truthy(msg.fields["topic"]))
  {
    match msg
    case JObject(fields) =>
      var action := Get(fields, "action");
      var topic := Get(fields, "topic");
      if action == SubscribeAction && Truthy(topic) then Subscribe(topic) else NotASubscribe
    case _ => NotAnObject
  }
}
